=== FILE: README.md ===
# API stub proxy and capture, modelled in Dafny

This project models the proxy path of the api-stub server and the admin screens' decisions about stored responses.

The proxy path is `ProxyHandler.perform` and `doCapture`. When a stubbed route is set to proxy, the handler works in these steps:

- It picks the upstream base URL: the route's override, or else the global default.
- It rebuilds the request: upper-cased method, URL with the query string, every header value, and the same body.
- It calls the upstream server.
- It drops a `Transfer-Encoding` header and streams the body in that case; otherwise it buffers the body.
- It stores the answer as a captured response when capturing is enabled. The route's own capturing flag decides when the route sets one, so a route set to false never captures. Only a route without a flag falls back to the global default.

The captured record keeps its headers as a text block: one `Name: value` line per value, joined by CRLF. Its bytes become an attachment when a download file name is found, and an inline body otherwise.

The admin controller (`ApiResponseController`) decides several things:

- what a create or an update stores (uploaded file, typed body, or keep the attachment);
- when the edit and history forms show the body;
- where the browser goes after a create or after deleting histories.

Modules:

- `Base` (base.dfy): nullable values with the `Optional` operations the handler chains, results, bytes, and `StringUtils.hasLength`.
- `Text` (text.dfy): ASCII upper-casing and the last segment of a path.
- `HttpHeaders` (headers.dfy): the header multimap. Names compare without regard to case. The module has `add`, `remove`, and forwarding of request headers.
- `HeaderBlock` (header_block.dfy): the CRLF header block and the `StringJoiner` loop that builds it. It also has a reader for the block, used to show that the block loses nothing.
- `Domain` (domain.dfy): the stored response. The payload is either `Inline` or `Attachment`. The module also maps records to and from the bean's nullable properties.
- `Proxy` (proxy.dfy): URL and flag resolution, the outbound request, response normalisation, the capture record, and `perform` as a whole.
- `ResponseController` (responses.dfy): create, edit, editForm, history, deleteHistories and deleteHistory.

Some collaborators are parameters of the functions that use them:

- the network exchange;
- the download-file-name lookup;
- the persistence calls;
- UTF-8 encoding and decoding.

Notes on the code as written:

- Outbound headers are added one value at a time, with the semantics of `HttpHeaders.add`. A header name that arrives with no values therefore produces no outbound entry.
- Names that differ only in case are merged into one entry.
- The capture record keeps the method as given, not upper-cased. Only the outbound request uses the upper-cased token.
- The download file name is looked up in the normalised headers, so it never comes from a dropped `Transfer-Encoding` header.
- A failed persistence write fails the whole call, even though the upstream answer was already received.
- A failed download-file-name lookup (the `UnsupportedEncodingException` that `perform` and `doCapture` declare) also fails the call after the upstream answer was received, with nothing stored.

## Model

| member | source | states |
|---|---|---|
| Text.ToUpper | api-stub-core/src/main/java/com/kazuki43zoo/api/handler/ProxyHandler.java:76 | Same length. Each ASCII lower-case letter becomes its capital, every other character is kept, and the result has no lower-case letter. |
| Text.LastSegment | api-stub-core/src/main/java/com/kazuki43zoo/manager/response/ApiResponseController.java:91 | The file name kept from an upload: a suffix of the original name that holds no '/'. It is the whole name or starts right after a '/'. |
| HttpHeaders.Remove | api-stub-core/src/main/java/com/kazuki43zoo/api/handler/ProxyHandler.java:90-91 | Removing Transfer-Encoding leaves no entry under that name. Every other header keeps exactly its values. A map without the name is unchanged, and well-formedness is kept. |
| HeaderBlock.RemoveKeepsOrder | api-stub-core/src/main/java/com/kazuki43zoo/api/handler/ProxyHandler.java:90-91 | Removing a header keeps the other headers and their values in their original order: the result flattens to the original (name, value) pairs with that header's pairs left out. |
| HttpHeaders.Forward | api-stub-core/src/main/java/com/kazuki43zoo/api/handler/ProxyHandler.java:78-79 | Outbound headers carry, for every name, exactly the inbound values in their original order, under one entry per name (compared without case). |
| HttpHeaders.ForwardCopiesDistinctHeaders | api-stub-core/src/main/java/com/kazuki43zoo/api/handler/ProxyHandler.java:78-79 | When inbound names are distinct and each has a value, the outbound headers equal the inbound headers. |
| HeaderBlock.SerializeHeaders | api-stub-core/src/main/java/com/kazuki43zoo/api/handler/ProxyHandler.java:117-119 | The StringJoiner loop yields the CRLF join of "Name: value" lines, one per value, in header-then-value order. |
| HeaderBlock.BlockEmptyIffNoValues | api-stub-core/src/main/java/com/kazuki43zoo/api/handler/ProxyHandler.java:117-119 | The header block is the empty string exactly when there are no header values. |
| HeaderBlock.BlockRoundTrip | api-stub-core/src/main/java/com/kazuki43zoo/api/handler/ProxyHandler.java:117-119 | Reading the block back at CRLF and at the first ':' gives every (name, value) pair in order, for names without ':' or CR and values without CR. |
| Domain.ToStored | api-stub-core/src/main/java/com/kazuki43zoo/api/handler/ProxyHandler.java:121-125 | A record's bean holds a file name and attachment exactly for an attachment payload, and a body exactly for an inline one. |
| Domain.FromStored | api-stub-core/src/main/java/com/kazuki43zoo/api/handler/ProxyHandler.java:121-125 | A bean reads back as a record exactly when it holds a body or a named file, but not both. Reading it back inverts ToStored. |
| Domain.StoredRoundTrip | api-stub-core/src/main/java/com/kazuki43zoo/api/handler/ProxyHandler.java:121-125 | Every record survives the trip through its bean. |
| Proxy.ResolveBaseUrl | api-stub-core/src/main/java/com/kazuki43zoo/api/handler/ProxyHandler.java:66-70 | The route's proxy URL when the route, its override and a non-empty URL all exist, else the global default. Never a mix. |
| Proxy.ComposeUrl | api-stub-core/src/main/java/com/kazuki43zoo/api/handler/ProxyHandler.java:72-73 | The URL starts with base URL plus path. It is longer than that exactly when the query string is non-empty, and then the rest is "?" followed by the query string. |
| Proxy.BuildOutbound | api-stub-core/src/main/java/com/kazuki43zoo/api/handler/ProxyHandler.java:72-79 | The outbound method is the caseless-equal upper-cased token. The URL is composed from the resolved base. Every inbound header value is forwarded in order, and the body is unchanged. |
| Proxy.Normalise | api-stub-core/src/main/java/com/kazuki43zoo/api/handler/ProxyHandler.java:86-95 | Status and bytes are copied. Transfer-Encoding is never in the result. The body is streamed exactly when upstream had Transfer-Encoding. Otherwise the headers are upstream's. No other header changes: the names are upstream's minus Transfer-Encoding, a well-formed upstream map stays well formed, every other name keeps its values, and the flattened pairs are upstream's in upstream order minus the Transfer-Encoding pairs. |
| Proxy.CapturingEnabled | api-stub-core/src/main/java/com/kazuki43zoo/api/handler/ProxyHandler.java:97-100 | The route's capturing flag when it sets one, else the global default. |
| Proxy.Capture | api-stub-core/src/main/java/com/kazuki43zoo/api/handler/ProxyHandler.java:112-125 | The record copies path, method, data key and status, and holds the header block of the returned headers. Its bytes are upstream's, as an attachment exactly when a file name was derived. |
| Proxy.Perform | api-stub-core/src/main/java/com/kazuki43zoo/api/handler/ProxyHandler.java:64-109 | An upstream failure stores nothing and fails. With capturing off nothing is stored. With capturing on, a failed file-name lookup stores nothing and fails; otherwise exactly one record is stored, and a failed write fails the call. Success returns the normalised response. |
| Proxy.CapturedBlockHasNoTransferEncoding | api-stub-core/src/main/java/com/kazuki43zoo/api/handler/ProxyHandler.java:117-120 | The captured header block reads back as the upstream pairs in upstream order with the Transfer-Encoding pairs left out, so none is named Transfer-Encoding. |
| Proxy.OrdersScenario | api-stub-core/src/main/java/com/kazuki43zoo/api/handler/ProxyHandler.java:64-109 | GET /orders?status=open with no override goes to the default upstream with its query and Accept header. The 200 answer comes back buffered and one inline record is stored. |
| ResponseController.UploadName | api-stub-core/src/main/java/com/kazuki43zoo/manager/response/ApiResponseController.java:91 | An uploaded file's stored name is the longest '/'-free suffix of its original file name: the whole name, or the text right after its last '/'. |
| ResponseController.CreatePayload | api-stub-core/src/main/java/com/kazuki43zoo/manager/response/ApiResponseController.java:87-94 | A create stores an attachment exactly when a file with a non-empty original name is uploaded. Otherwise it stores the UTF-8 bytes of the typed body. |
| ResponseController.Create | api-stub-core/src/main/java/com/kazuki43zoo/manager/response/ApiResponseController.java:82-104 | Validation errors store nothing. A duplicate key re-shows the form with "data already exists" and no redirect. A success redirects to the new record's id. |
| ResponseController.Edit | api-stub-core/src/main/java/com/kazuki43zoo/manager/response/ApiResponseController.java:128-148 | Precedence is file, then non-empty body, then keep. Keep holds exactly when there is no file, the body is empty and deleteFile is false, and then no payload is set. saveHistory is passed unchanged. |
| ResponseController.EditAgreesWithCreate | api-stub-core/src/main/java/com/kazuki43zoo/manager/response/ApiResponseController.java:87-144 | An update stores the same fields and payload as a create of the same form exactly when the form brings a file or a non-empty body. With neither, a create stores an empty inline body. |
| ResponseController.FormBody | api-stub-core/src/main/java/com/kazuki43zoo/manager/response/ApiResponseController.java:114-117 | The form shows the decoded body exactly when the record has a body and no file name. |
| ResponseController.EditForm | api-stub-core/src/main/java/com/kazuki43zoo/manager/response/ApiResponseController.java:106-126 | A missing record, and only that, redirects to the list. The form shows a body only for a record with a body and no file name, and then the decoded body. An attachment record never fills the form body. |
| ResponseController.History | api-stub-core/src/main/java/com/kazuki43zoo/manager/response/ApiResponseController.java:197-216 | A missing history entry, and only that, redirects to the history list. The form shows a body only for an entry with a body and no file name, and then the decoded body. An attachment entry never fills the form body. |
| ResponseController.CreatedRecordReopened | api-stub-core/src/main/java/com/kazuki43zoo/manager/response/ApiResponseController.java:87-117 | A created record reopened in the edit form, or opened as a history entry, shows the typed body when no file was uploaded, and no body when one was. |
| ResponseController.CreatedRecordShowsTypedBody | api-stub-core/src/main/java/com/kazuki43zoo/manager/response/ApiResponseController.java:87-117 | A created record, opened again, shows the typed body when no file was uploaded, and no body when one was. |
| ResponseController.RedirectAfterHistoryDeletion | api-stub-core/src/main/java/com/kazuki43zoo/manager/response/ApiResponseController.java:190-194 | After a deletion, the redirect goes to the record exactly when no history remains, and to the history list otherwise. |
| ResponseController.DeleteHistories | api-stub-core/src/main/java/com/kazuki43zoo/manager/response/ApiResponseController.java:186-195 | The deleted sub-ids leave the store. The browser returns to the record exactly when every history was among those deleted. |
| ResponseController.DeleteHistory | api-stub-core/src/main/java/com/kazuki43zoo/manager/response/ApiResponseController.java:226-235 | Deleting one history returns to the record exactly when it was the only one left. Otherwise it goes to the history list. |

## Left out

- The network call (`restOperations.exchange`) is the `exchange` parameter of `Proxy.Perform`. Its failure includes the exceptions the REST client raises for error statuses.
- Timeouts and transport behaviour belong to the same parameter.
- `ApiResponseService` persistence is left out: create, update, delete, findOne, history lookups, restore, duplicate-key detection and id assignment. These appear as parameters, as the recorded update call, or as the set of history sub-ids.
- The id that the capture write assigns is only logged by the handler, so it is not modelled.
- `DownloadSupport` is not part of this model. `extractDownloadFileName` is the `fileNameOf` parameter, which may fail with a reason in place of its declared `UnsupportedEncodingException`. `addContentDisposition` and the two download endpoints are left out.
- `URI.create` parsing failures and `HttpMethod.valueOf` rejection of unknown method tokens are left out. The outbound method is kept as the upper-cased string.
- UTF-8 encoding of the form body and decoding of a stored body are the `utf8` and `decode` parameters.
- Text.ToUpper: upper-cases ASCII letters only. Java's locale-dependent Unicode upper-casing is not modelled, and header-name comparison inherits this.
- Text.LastSegment: approximates `Paths.get(name).getFileName()` as the text after the last '/'. A name ending in '/' gives "" where the platform would drop the trailing separator. A bare "/" would make the Java code fail.
- Proxy.Perform: an upstream answer without a body is not modelled. The REST client gives a null byte array for answers such as 204, 304 or Content-Length 0. The source then fails with a NullPointerException: when wrapping the body for a Transfer-Encoding answer (ProxyHandler.java line 92), and when capturing is on (lines 122 and 124). The model always has a byte sequence, so for an empty body it returns success and stores an empty inline record where the source fails.
- A null global default URL is not modelled. Java would concatenate it as "null".
- A null form body in create is not modelled. Form binding supplies a string.
- ResponseController.DeleteHistories: assumes the history store removes exactly the named sub-ids. The controller itself only reads back what remains, which `RedirectAfterHistoryDeletion` models directly.
- Logging (`ApiEvidence`), servlet and Spring request objects, stream and resource wrappers, views, model attributes and flash messages are left out. Only the redirect choice and the form error remain.
- The list, delete, createForm, histories, restoreHistory and download handlers are view glue and are left out.
- The validation-error branch of edit is reduced to "form shown, nothing updated".
- `KeyExtractor` declares an interface with no behaviour.

=== FILE: base.dfy ===
/** Vocabulary shared by every module: nullable values, results, bytes and
    Spring's "has length" test on strings. */
module Base {

  /** A Java reference that may be null, used with the operations of
      java.util.Optional that the handlers chain together. */
  datatype Option<T> = None | Some(value: T) {

    /** Optional.map over a getter whose result may itself be null. */
    function FlatMap<U>(f: T -> Option<U>): Option<U>
    {
      match this
      case None => None
      case Some(v) => f(v)
    }

    /** Optional.filter */
    function Filter(p: T -> bool): Option<T>
    {
      match this
      case None => None
      case Some(v) => if p(v) then this else None
    }

    /** Optional.orElse */
    function OrElse(default: T): T
    {
      match this
      case None => default
      case Some(v) => v
    }
  }

  /** The outcome of a call that may throw. */
  datatype Result<T, E> = Success(value: T) | Failure(error: E)

  /** One element of a Java byte[]; only identity matters in this model. */
  newtype byte = x: int | -128 <= x < 128

  /** StringUtils.hasLength: the string is not null and not empty. */
  predicate HasLength(s: Option<string>)
  {
    s.Some? && |s.value| > 0
  }
}

=== FILE: domain.dfy ===
/** The stored response record (ApiResponse) shared by the proxy capture and
    the admin screens. */
module Domain {
  import opened Base

  /** The properties a record shares with its edit form. */
  datatype ResponseFields = ResponseFields(
    path: string,
    httpMethod: string,
    dataKey: Option<string>,
    statusCode: int,
    header: string)

  /** Where the record keeps its bytes: an inline body, or an attachment
      file under a name, and never both. */
  datatype Payload =
    | Inline(body: seq<byte>)
    | Attachment(fileName: string, content: seq<byte>)
  {
    function Bytes(): seq<byte>
    {
      match this
      case Inline(b) => b
      case Attachment(_, c) => c
    }
  }

  datatype ApiResponse = ApiResponse(fields: ResponseFields, payload: Payload)

  /** The record as the Java bean holds it: body, fileName and
      attachmentFile are separate nullable properties. */
  datatype StoredResponse = StoredResponse(
    fields: ResponseFields,
    body: Option<seq<byte>>,
    fileName: Option<string>,
    attachmentFile: Option<seq<byte>>)

  /** The bean for a record: an inline body leaves the file properties null,
      an attachment leaves the body null. */
  function ToStored(r: ApiResponse): (s: StoredResponse)
    ensures s.fields == r.fields
    ensures s.fileName.Some? <==> r.payload.Attachment?
    ensures s.body.Some? <==> r.payload.Inline?
    ensures s.attachmentFile.Some? <==> s.fileName.Some?
  {
    match r.payload
    case Inline(b) => StoredResponse(r.fields, Some(b), None, None)
    case Attachment(n, c) => StoredResponse(r.fields, None, Some(n), Some(c))
  }

  /** Reads a bean back as a record; it succeeds exactly on beans that hold
      either a body or a named file and not both, and then inverts ToStored. */
  function FromStored(s: StoredResponse): (r: Option<ApiResponse>)
    ensures r.Some? <==> (s.body.Some? != s.fileName.Some?) && (s.fileName.Some? == s.attachmentFile.Some?)
    ensures r.Some? ==> ToStored(r.value) == s
  {
    if s.body.Some? && s.fileName.None? && s.attachmentFile.None? then
      Some(ApiResponse(s.fields, Inline(s.body.value)))
    else if s.body.None? && s.fileName.Some? && s.attachmentFile.Some? then
      Some(ApiResponse(s.fields, Attachment(s.fileName.value, s.attachmentFile.value)))
    else None
  }

  /** Every record survives the trip through its bean. */
  lemma StoredRoundTrip(r: ApiResponse)
    ensures FromStored(ToStored(r)) == Some(r)
  {
  }
}

=== FILE: header_block.dfy ===
/** The text form in which a captured response keeps its headers: one
    "Name: value" line per value, lines joined by CRLF. */
module HeaderBlock {
  import opened Base
  import opened HttpHeaders

  const HeaderSeparator: string := "\r\n"
  const KeyValueSeparator: string := ":"

  /** One (name, value) pair per value, in the given order. */
  function Pairs(name: string, values: seq<string>): seq<(string, string)>
  {
    seq(|values|, i requires 0 <= i < |values| => (name, values[i]))
  }

  /** All (name, value) pairs, header after header, value after value. */
  function Flatten(h: HeaderMap): seq<(string, string)>
  {
    if |h| == 0 then [] else Pairs(h[0].0, h[0].1) + Flatten(h[1..])
  }

  function Line(p: (string, string)): string
  {
    p.0 + KeyValueSeparator + " " + p.1
  }

  function Lines(ps: seq<(string, string)>): seq<string>
  {
    seq(|ps|, i requires 0 <= i < |ps| => Line(ps[i]))
  }

  /** The lines with a CRLF between neighbours; no lines give "". */
  function Join(lines: seq<string>): string
  {
    if |lines| == 0 then ""
    else if |lines| == 1 then lines[0]
    else lines[0] + HeaderSeparator + Join(lines[1..])
  }

  /** The header block of a header map. */
  function Block(h: HeaderMap): string
  {
    Join(Lines(Flatten(h)))
  }

  lemma {:induction false} FlattenConcat(a: HeaderMap, b: HeaderMap)
    ensures Flatten(a + b) == Flatten(a) + Flatten(b)
  {
    if |a| == 0 {
      assert a + b == b;
    } else {
      assert (a + b)[1..] == a[1..] + b;
      FlattenConcat(a[1..], b);
    }
  }

  lemma {:induction false} JoinSnoc(lines: seq<string>, line: string)
    requires |lines| > 0
    ensures Join(lines + [line]) == Join(lines) + HeaderSeparator + line
  {
    if |lines| > 1 {
      assert (lines + [line])[1..] == lines[1..] + [line];
      JoinSnoc(lines[1..], line);
    }
  }

  /** The StringJoiner loop of the capture: every value of every header is
      added as one line, and the text comes out as the block of the map. */
  method SerializeHeaders(h: HeaderMap) returns (block: string)
    ensures block == Block(h)
  {
    var joined: Option<string> := None;
    ghost var done: seq<(string, string)> := [];
    var i := 0;
    while i < |h|
      invariant 0 <= i <= |h|
      invariant done == Flatten(h[..i])
      invariant joined == if |done| == 0 then None else Some(Join(Lines(done)))
    {
      var (name, values) := h[i];
      var j := 0;
      while j < |values|
        invariant 0 <= j <= |values|
        invariant done == Flatten(h[..i]) + Pairs(name, values[..j])
        invariant joined == if |done| == 0 then None else Some(Join(Lines(done)))
      {
        var line := name + KeyValueSeparator + " " + values[j];
        assert Lines(done + [(name, values[j])]) == Lines(done) + [line];
        if joined.None? {
          joined := Some(line);
        } else {
          JoinSnoc(Lines(done), line);
          joined := Some(joined.value + HeaderSeparator + line);
        }
        assert Pairs(name, values[..j + 1]) == Pairs(name, values[..j]) + [(name, values[j])];
        done := done + [(name, values[j])];
        j := j + 1;
      }
      assert values[..j] == values;
      assert h[..i + 1] == h[..i] + [h[i]];
      FlattenConcat(h[..i], [h[i]]);
      assert Flatten([h[i]]) == Pairs(name, values) + Flatten([]);
      i := i + 1;
    }
    assert h[..i] == h;
    block := if joined.None? then "" else joined.value;
  }

  /** The block is empty exactly when the map holds no value at all. */
  lemma {:induction false} BlockEmptyIffNoValues(h: HeaderMap)
    ensures Block(h) == "" <==> |Flatten(h)| == 0
  {
  }

  /** A name without an entry in the map names none of its pairs. */
  lemma {:induction false} FlattenNamesAreKeys(h: HeaderMap, name: string)
    requires !ContainsKey(h, name)
    ensures forall k :: 0 <= k < |Flatten(h)| ==> !SameName(Flatten(h)[k].0, name)
  {
    if |h| > 0 {
      FlattenNamesAreKeys(h[1..], name);
      var ps := Pairs(h[0].0, h[0].1);
      assert forall k :: 0 <= k < |ps| ==> ps[k].0 == h[0].0;
    }
  }

  /** The pairs in their order with those of the given header left out. */
  function DropName(ps: seq<(string, string)>, name: string): seq<(string, string)>
  {
    if |ps| == 0 then []
    else (if SameName(ps[0].0, name) then [] else [ps[0]]) + DropName(ps[1..], name)
  }

  lemma {:induction false} DropNameConcat(a: seq<(string, string)>, b: seq<(string, string)>, name: string)
    ensures DropName(a + b, name) == DropName(a, name) + DropName(b, name)
  {
    if |a| == 0 {
      assert a + b == b;
    } else {
      assert (a + b)[1..] == a[1..] + b;
      DropNameConcat(a[1..], b, name);
    }
  }

  lemma {:induction false} DropNameOfPairs(entry: string, values: seq<string>, name: string)
    ensures DropName(Pairs(entry, values), name) == if SameName(entry, name) then [] else Pairs(entry, values)
  {
    if |values| > 0 {
      assert Pairs(entry, values)[1..] == Pairs(entry, values[1..]);
      DropNameOfPairs(entry, values[1..], name);
    }
  }

  /** Removing a header keeps the remaining pairs in their order: the
      removed map flattens to the original pairs with that header's pairs
      left out. */
  lemma {:induction false} RemoveKeepsOrder(h: HeaderMap, name: string)
    ensures Flatten(Remove(h, name)) == DropName(Flatten(h), name)
  {
    if |h| > 0 {
      RemoveKeepsOrder(h[1..], name);
      DropNameConcat(Pairs(h[0].0, h[0].1), Flatten(h[1..]), name);
      DropNameOfPairs(h[0].0, h[0].1, name);
      if !SameName(h[0].0, name) {
        var rest := Remove(h[1..], name);
        assert Remove(h, name) == [h[0]] + rest;
        assert ([h[0]] + rest)[1..] == rest;
      }
    }
  }

  lemma {:induction false} DropNameOfAbsent(ps: seq<(string, string)>, name: string)
    requires forall k :: 0 <= k < |ps| ==> !SameName(ps[k].0, name)
    ensures DropName(ps, name) == ps
  {
    if |ps| > 0 {
      DropNameOfAbsent(ps[1..], name);
    }
  }

  // Reading a block back.

  /** Where the first CRLF of the text starts, if there is one. */
  function FindSeparator(s: string): (r: Option<nat>)
    ensures r.Some? ==> r.value + 1 < |s| && s[r.value] == '\r' && s[r.value + 1] == '\n'
    ensures r.None? ==> forall k :: 0 <= k < |s| - 1 ==> !(s[k] == '\r' && s[k + 1] == '\n')
  {
    if |s| < 2 then None
    else if s[0] == '\r' && s[1] == '\n' then Some(0)
    else match FindSeparator(s[1..])
      case None => None
      case Some(k) => Some(k + 1)
  }

  /** The text cut at every CRLF. */
  function SplitLines(s: string): seq<string>
    decreases |s|
  {
    match FindSeparator(s)
    case None => [s]
    case Some(k) => [s[..k]] + SplitLines(s[k + 2..])
  }

  /** Where the first ':' of the text is, if there is one. */
  function FindColon(s: string): (r: Option<nat>)
    ensures r.Some? ==> r.value < |s| && s[r.value] == ':' && ':' !in s[..r.value]
    ensures r.None? ==> ':' !in s
  {
    if |s| == 0 then None
    else if s[0] == ':' then Some(0)
    else match FindColon(s[1..])
      case None => None
      case Some(k) => assert s[..k + 1] == [s[0]] + s[1..][..k]; Some(k + 1)
  }

  /** A line read back as a name and a value: the name ends at the first
      ':', and the value follows the space after it. */
  function ParseLine(line: string): (string, string)
  {
    match FindColon(line)
    case None => (line, "")
    case Some(k) =>
      var rest := line[k + 1..];
      (line[..k], if |rest| > 0 && rest[0] == ' ' then rest[1..] else rest)
  }

  function ParseBlock(s: string): seq<(string, string)>
  {
    if s == "" then []
    else
      var lines := SplitLines(s);
      seq(|lines|, i requires 0 <= i < |lines| => ParseLine(lines[i]))
  }

  /** Header text that the block can carry: names without ':' or CR, values
      without CR, as HTTP field names and values are. */
  predicate Encodable(ps: seq<(string, string)>)
  {
    forall k :: 0 <= k < |ps| ==> ':' !in ps[k].0 && '\r' !in ps[k].0 && '\r' !in ps[k].1
  }

  lemma {:induction false} SeparatorAfterLine(l: string, rest: string)
    requires '\r' !in l
    ensures FindSeparator(l + HeaderSeparator + rest) == Some(|l|)
  {
    if |l| > 0 {
      assert (l + HeaderSeparator + rest)[1..] == l[1..] + HeaderSeparator + rest;
      SeparatorAfterLine(l[1..], rest);
    }
  }

  lemma {:induction false} SplitJoin(lines: seq<string>)
    requires |lines| > 0
    requires forall k :: 0 <= k < |lines| ==> '\r' !in lines[k]
    ensures SplitLines(Join(lines)) == lines
  {
    if |lines| > 1 {
      var rest := Join(lines[1..]);
      SeparatorAfterLine(lines[0], rest);
      var s := lines[0] + HeaderSeparator + rest;
      assert s[..|lines[0]|] == lines[0];
      assert s[|lines[0]| + 2..] == rest;
      SplitJoin(lines[1..]);
    }
  }

  lemma ParseLineOfLine(p: (string, string))
    requires ':' !in p.0
    ensures ParseLine(Line(p)) == p
  {
    var l := Line(p);
    assert l[..|p.0|] == p.0;
    assert l[|p.0|] == ':';
    assert FindColon(l) == Some(|p.0|);
    assert l[|p.0| + 1..] == " " + p.1;
  }

  /** Reading the block back gives every (name, value) pair of the map, in
      order, so the block loses nothing. */
  lemma BlockRoundTrip(h: HeaderMap)
    requires Encodable(Flatten(h))
    ensures ParseBlock(Block(h)) == Flatten(h)
  {
    var ps := Flatten(h);
    var ls := Lines(ps);
    BlockEmptyIffNoValues(h);
    if |ps| > 0 {
      forall k | 0 <= k < |ls| ensures '\r' !in ls[k] {
        assert ls[k] == ps[k].0 + ":" + " " + ps[k].1;
      }
      SplitJoin(ls);
      forall k | 0 <= k < |ls| ensures ParseLine(ls[k]) == ps[k] {
        ParseLineOfLine(ps[k]);
      }
    }
  }
}

=== FILE: headers.dfy ===
/** Spring's HttpHeaders as this model sees it: a multimap from header names
    to value lists, kept in insertion order, whose names compare without
    regard to case. */
module HttpHeaders {
  import opened Text

  /** Each entry is a header name with all of its values, in order. */
  type HeaderMap = seq<(string, seq<string>)>

  /** The form under which two header names are the same header. */
  function Canonical(name: string): string
  {
    ToUpper(name)
  }

  predicate SameName(a: string, b: string)
  {
    Canonical(a) == Canonical(b)
  }

  /** The canonical names that have an entry. */
  function Keys(h: HeaderMap): set<string>
  {
    if |h| == 0 then {} else {Canonical(h[0].0)} + Keys(h[1..])
  }

  /** No two entries name the same header, which the case-insensitive map
      behind HttpHeaders guarantees. */
  predicate WellFormed(h: HeaderMap)
  {
    |h| == 0 || (Canonical(h[0].0) !in Keys(h[1..]) && WellFormed(h[1..]))
  }

  /** HttpHeaders.containsKey */
  predicate ContainsKey(h: HeaderMap, name: string)
  {
    Canonical(name) in Keys(h)
  }

  /** Every value recorded under the name, entry after entry, each entry's
      values in their order. */
  function ValuesOf(h: HeaderMap, name: string): seq<string>
  {
    if |h| == 0 then []
    else (if SameName(h[0].0, name) then h[0].1 else []) + ValuesOf(h[1..], name)
  }

  lemma {:induction false} AbsentHasNoValues(h: HeaderMap, name: string)
    requires !ContainsKey(h, name)
    ensures ValuesOf(h, name) == []
  {
    if |h| > 0 {
      AbsentHasNoValues(h[1..], name);
    }
  }

  /** HttpHeaders.remove: the result has no entry for the name, every other
      header keeps exactly its values, and a map without the name is left
      as it was. */
  function Remove(h: HeaderMap, name: string): (r: HeaderMap)
    ensures Keys(r) == Keys(h) - {Canonical(name)}
    ensures !ContainsKey(r, name)
    ensures !ContainsKey(h, name) ==> r == h
    ensures forall n :: !SameName(n, name) ==> ValuesOf(r, n) == ValuesOf(h, n)
    ensures WellFormed(h) ==> WellFormed(r)
  {
    if |h| == 0 then []
    else if SameName(h[0].0, name) then Remove(h[1..], name)
    else
      var rest := Remove(h[1..], name);
      assert ([h[0]] + rest)[1..] == rest;
      [h[0]] + rest
  }

  /** HttpHeaders.add: appends the value to the entry for the name, or adds
      a new entry at the end when there is none. */
  function Add(h: HeaderMap, name: string, value: string): (r: HeaderMap)
    ensures Keys(r) == Keys(h) + {Canonical(name)}
    ensures |r| == if ContainsKey(h, name) then |h| else |h| + 1
  {
    if |h| == 0 then [(name, [value])]
    else if SameName(h[0].0, name) then
      var r := [(h[0].0, h[0].1 + [value])] + h[1..];
      assert r[1..] == h[1..];
      r
    else
      var rest := Add(h[1..], name, value);
      assert ([h[0]] + rest)[1..] == rest;
      [h[0]] + rest
  }

  /** Adding a value keeps the map well formed and appends the value to the
      values of that header alone. */
  lemma {:induction false} AddAppendsValue(h: HeaderMap, name: string, value: string)
    requires WellFormed(h)
    ensures WellFormed(Add(h, name, value))
    ensures forall n :: ValuesOf(Add(h, name, value), n)
                        == ValuesOf(h, n) + (if SameName(n, name) then [value] else [])
  {
    if |h| == 0 {
    } else if SameName(h[0].0, name) {
      var r := Add(h, name, value);
      assert r[1..] == h[1..];
      forall n ensures ValuesOf(r, n) == ValuesOf(h, n) + (if SameName(n, name) then [value] else []) {
        if SameName(n, name) {
          AbsentHasNoValues(h[1..], n);
        }
      }
    } else {
      AddAppendsValue(h[1..], name, value);
      var r := Add(h, name, value);
      assert r[1..] == Add(h[1..], name, value);
    }
  }

  /** Adds each value in turn: the request builder's header(name, values...). */
  function AddAll(h: HeaderMap, name: string, values: seq<string>): HeaderMap
    decreases |values|
  {
    if |values| == 0 then h else AddAll(Add(h, name, values[0]), name, values[1..])
  }

  lemma {:induction false} AddAllAppendsValues(h: HeaderMap, name: string, values: seq<string>)
    requires WellFormed(h)
    ensures WellFormed(AddAll(h, name, values))
    ensures forall n :: ValuesOf(AddAll(h, name, values), n)
                        == ValuesOf(h, n) + (if SameName(n, name) then values else [])
    decreases |values|
  {
    if |values| > 0 {
      AddAppendsValue(h, name, values[0]);
      AddAllAppendsValues(Add(h, name, values[0]), name, values[1..]);
      assert values == [values[0]] + values[1..];
    }
  }

  /** Copies the inbound headers, name by name, onto the headers built so far. */
  function ForwardFrom(built: HeaderMap, inbound: HeaderMap): HeaderMap
    decreases |inbound|
  {
    if |inbound| == 0 then built
    else ForwardFrom(AddAll(built, inbound[0].0, inbound[0].1), inbound[1..])
  }

  lemma {:induction false} ForwardFromKeepsValues(built: HeaderMap, inbound: HeaderMap)
    requires WellFormed(built)
    ensures WellFormed(ForwardFrom(built, inbound))
    ensures forall n :: ValuesOf(ForwardFrom(built, inbound), n) == ValuesOf(built, n) + ValuesOf(inbound, n)
    decreases |inbound|
  {
    if |inbound| > 0 {
      var next := AddAll(built, inbound[0].0, inbound[0].1);
      AddAllAppendsValues(built, inbound[0].0, inbound[0].1);
      ForwardFromKeepsValues(next, inbound[1..]);
    }
  }

  /** The outbound request headers: every inbound header name arrives with
      all of its values in their original order, under one entry per name. */
  function Forward(inbound: HeaderMap): (r: HeaderMap)
    ensures WellFormed(r)
    ensures forall n :: ValuesOf(r, n) == ValuesOf(inbound, n)
  {
    ForwardFromKeepsValues([], inbound);
    ForwardFrom([], inbound)
  }

  lemma {:induction false} KeysOfConcat(a: HeaderMap, b: HeaderMap)
    ensures Keys(a + b) == Keys(a) + Keys(b)
    ensures WellFormed(a + b) <==> WellFormed(a) && WellFormed(b) && Keys(a) !! Keys(b)
  {
    if |a| > 0 {
      assert (a + b)[1..] == a[1..] + b;
      KeysOfConcat(a[1..], b);
    } else {
      assert a + b == b;
    }
  }

  lemma {:induction false} AddAbsentAppendsEntry(h: HeaderMap, name: string, value: string)
    requires !ContainsKey(h, name)
    ensures Add(h, name, value) == h + [(name, [value])]
  {
    if |h| > 0 {
      AddAbsentAppendsEntry(h[1..], name, value);
      assert h == [h[0]] + h[1..];
    }
  }

  lemma {:induction false} AddToLastEntry(h: HeaderMap, name: string, values: seq<string>, value: string)
    requires !ContainsKey(h, name)
    ensures Add(h + [(name, values)], name, value) == h + [(name, values + [value])]
  {
    if |h| > 0 {
      assert (h + [(name, values)])[1..] == h[1..] + [(name, values)];
      AddToLastEntry(h[1..], name, values, value);
      assert h == [h[0]] + h[1..];
    }
  }

  lemma {:induction false} AddAllToLastEntry(h: HeaderMap, name: string, values: seq<string>, more: seq<string>)
    requires !ContainsKey(h, name)
    ensures AddAll(h + [(name, values)], name, more) == h + [(name, values + more)]
    decreases |more|
  {
    if |more| == 0 {
      assert values + more == values;
    } else {
      AddToLastEntry(h, name, values, more[0]);
      assert AddAll(h + [(name, values)], name, more)
          == AddAll(h + [(name, values + [more[0]])], name, more[1..]);
      AddAllToLastEntry(h, name, values + [more[0]], more[1..]);
      assert values + [more[0]] + more[1..] == values + more;
    }
  }

  lemma {:induction false} ForwardFromAppends(built: HeaderMap, inbound: HeaderMap)
    requires WellFormed(built + inbound)
    requires forall i :: 0 <= i < |inbound| ==> |inbound[i].1| > 0
    ensures ForwardFrom(built, inbound) == built + inbound
    decreases |inbound|
  {
    if |inbound| == 0 {
      assert built + inbound == built;
    } else {
      var (name, values) := inbound[0];
      KeysOfConcat(built, inbound);
      assert Canonical(name) in Keys(inbound);
      AddAbsentAppendsEntry(built, name, values[0]);
      AddAllToLastEntry(built, name, [values[0]], values[1..]);
      assert [values[0]] + values[1..] == values;
      assert AddAll(built, name, values) == built + [inbound[0]];
      assert built + [inbound[0]] + inbound[1..] == built + inbound;
      ForwardFromAppends(built + [inbound[0]], inbound[1..]);
    }
  }

  /** When the inbound names are already distinct and each carries a value,
      as a servlet request's header names do, the outbound headers are an
      exact copy of the inbound ones. */
  lemma ForwardCopiesDistinctHeaders(inbound: HeaderMap)
    requires WellFormed(inbound)
    requires forall i :: 0 <= i < |inbound| ==> |inbound[i].1| > 0
    ensures Forward(inbound) == inbound
  {
    assert [] + inbound == inbound;
    ForwardFromAppends([], inbound);
  }
}

=== FILE: proxy.dfy ===
/** ProxyHandler: forwards a stubbed route's request to the upstream server,
    normalises the answer, and captures it as a stored response when the
    route or the global settings ask for it. The network exchange, the
    download-file-name lookup and the persistence write are parameters. */
module Proxy {
  import opened Base
  import opened Text
  import opened HttpHeaders
  import opened HeaderBlock
  import opened Domain

  /** Per-route proxy override; either property may be unset (null). */
  datatype ApiProxy = ApiProxy(url: Option<string>, capturing: Option<bool>)

  /** A stubbed route, with its optional proxy override. */
  datatype Api = Api(path: string, httpMethod: string, proxy: Option<ApiProxy>)

  /** The global proxy properties: default upstream URL and capturing flag. */
  datatype ProxySettings = ProxySettings(defaultUrl: string, defaultCapturing: bool)

  /** What the handler reads from the servlet request and its entity. */
  datatype InboundRequest = InboundRequest(
    queryString: Option<string>,
    headers: HeaderMap,
    body: Option<string>)

  datatype OutboundRequest = OutboundRequest(
    httpMethod: string,
    url: string,
    headers: HeaderMap,
    body: Option<string>)

  /** The upstream answer as RestOperations.exchange returns it. */
  datatype UpstreamResponse = UpstreamResponse(status: int, headers: HeaderMap, body: seq<byte>)

  /** The response body: the byte array itself, or a stream over it. */
  datatype Body = Buffered(bytes: seq<byte>) | Streamed(bytes: seq<byte>)

  datatype ResponseEnvelope = ResponseEnvelope(status: int, headers: HeaderMap, body: Body)

  datatype ProxyError =
    | UpstreamFailed(url: string, reason: string)
    | FileNameFailed(reason: string)
    | CaptureFailed(record: ApiResponse)

  /** One call of perform: the request sent upstream, the records handed to
      the persistence layer, and what the caller gets. */
  datatype ProxyRun = ProxyRun(
    sent: OutboundRequest,
    captured: seq<ApiResponse>,
    result: Result<ResponseEnvelope, ProxyError>)

  const TransferEncoding: string := "Transfer-Encoding"

  /** The route's proxy URL when the route, its override and a non-empty
      URL all exist. */
  predicate HasRouteUrl(api: Option<Api>)
  {
    api.Some? && api.value.proxy.Some? && HasLength(api.value.proxy.value.url)
  }

  /** The upstream base URL: the route's own URL when it has a non-empty
      one, the global default otherwise, and never anything else. */
  function ResolveBaseUrl(api: Option<Api>, settings: ProxySettings): (url: string)
    ensures HasRouteUrl(api) ==> url == api.value.proxy.value.url.value
    ensures !HasRouteUrl(api) ==> url == settings.defaultUrl
  {
    api.FlatMap((a: Api) => a.proxy)
       .FlatMap((p: ApiProxy) => p.url)
       .Filter((u: string) => |u| > 0)
       .OrElse(settings.defaultUrl)
  }

  /** The target URL: the base URL, the path, and "?" with the query string
      only when there is a non-empty one. */
  function ComposeUrl(baseUrl: string, path: string, query: Option<string>): (url: string)
    ensures |url| >= |baseUrl + path| && url[..|baseUrl + path|] == baseUrl + path
    ensures |url| == |baseUrl + path| <==> !HasLength(query)
    ensures HasLength(query) ==> url[|baseUrl + path|] == '?' && url[|baseUrl + path| + 1..] == query.value
  {
    baseUrl + path + (if HasLength(query) then "?" + query.value else "")
  }

  /** The request built for the upstream call: upper-cased method, composed
      URL, every inbound header with all its values, the same body. */
  function BuildOutbound(settings: ProxySettings, api: Option<Api>, inbound: InboundRequest,
                         path: string, httpMethod: string): (r: OutboundRequest)
    ensures |r.httpMethod| == |httpMethod| && forall i :: 0 <= i < |r.httpMethod| ==> !IsLowerAscii(r.httpMethod[i])
    ensures SameName(r.httpMethod, httpMethod)
    ensures r.url == ComposeUrl(ResolveBaseUrl(api, settings), path, inbound.queryString)
    ensures WellFormed(r.headers)
    ensures forall n :: ValuesOf(r.headers, n) == ValuesOf(inbound.headers, n)
    ensures r.body == inbound.body
  {
    ToUpperIdempotent(httpMethod);
    OutboundRequest(
      ToUpper(httpMethod),
      ComposeUrl(ResolveBaseUrl(api, settings), path, inbound.queryString),
      Forward(inbound.headers),
      inbound.body)
  }

  /** The response handed back: status and bytes as received; with a
      Transfer-Encoding header, that header is dropped and the body is
      streamed, otherwise the headers are kept as they are and the body is
      buffered. No other header changes. */
  function Normalise(raw: UpstreamResponse): (r: ResponseEnvelope)
    ensures r.status == raw.status
    ensures r.body.bytes == raw.body
    ensures !ContainsKey(r.headers, TransferEncoding)
    ensures r.body.Streamed? <==> ContainsKey(raw.headers, TransferEncoding)
    ensures !ContainsKey(raw.headers, TransferEncoding) ==> r.headers == raw.headers
    ensures forall n :: !SameName(n, TransferEncoding) ==> ValuesOf(r.headers, n) == ValuesOf(raw.headers, n)
    ensures Flatten(r.headers) == DropName(Flatten(raw.headers), TransferEncoding)
    ensures Keys(r.headers) == Keys(raw.headers) - {Canonical(TransferEncoding)}
    ensures WellFormed(raw.headers) ==> WellFormed(r.headers)
  {
    if ContainsKey(raw.headers, TransferEncoding) then
      RemoveKeepsOrder(raw.headers, TransferEncoding);
      ResponseEnvelope(raw.status, Remove(raw.headers, TransferEncoding), Streamed(raw.body))
    else
      FlattenNamesAreKeys(raw.headers, TransferEncoding);
      DropNameOfAbsent(Flatten(raw.headers), TransferEncoding);
      ResponseEnvelope(raw.status, raw.headers, Buffered(raw.body))
  }

  /** The capturing flag a route sets for itself, if any. */
  function CapturingOverride(api: Option<Api>): Option<bool>
  {
    api.FlatMap((a: Api) => a.proxy).FlatMap((p: ApiProxy) => p.capturing)
  }

  /** Whether to capture: the route's own flag when it sets one, the global
      default otherwise. */
  function CapturingEnabled(api: Option<Api>, settings: ProxySettings): (enabled: bool)
    ensures api.Some? && api.value.proxy.Some? && api.value.proxy.value.capturing.Some?
            ==> enabled == api.value.proxy.value.capturing.value
    ensures !(api.Some? && api.value.proxy.Some? && api.value.proxy.value.capturing.Some?)
            ==> enabled == settings.defaultCapturing
  {
    CapturingOverride(api).OrElse(settings.defaultCapturing)
  }

  /** The record doCapture stores: the route's path, method and data key,
      the upstream status, the header block of the returned headers, and the
      upstream bytes as an attachment when a download file name was found,
      inline otherwise. */
  function Capture(path: string, httpMethod: string, dataKey: Option<string>, status: int,
                   headers: HeaderMap, bytes: seq<byte>, fileName: Option<string>): (r: ApiResponse)
    ensures r.fields == ResponseFields(path, httpMethod, dataKey, status, Block(headers))
    ensures r.payload.Bytes() == bytes
    ensures r.payload.Attachment? <==> fileName.Some?
    ensures r.payload.Attachment? ==> r.payload.fileName == fileName.value
  {
    ApiResponse(
      ResponseFields(path, httpMethod, dataKey, status, Block(headers)),
      if fileName.Some? then Attachment(fileName.value, bytes) else Inline(bytes))
  }

  /** ProxyHandler.perform with doCapture. The upstream failure ends the call
      with nothing stored. Otherwise, when capturing is on, the download file
      name is looked up in the returned headers; a failed lookup (the
      declared UnsupportedEncodingException) fails the call with nothing
      stored, and a successful one hands exactly one record to the
      persistence layer, whose failed write fails the whole call. When
      capturing is off nothing is stored. */
  function Perform(settings: ProxySettings, api: Option<Api>, inbound: InboundRequest,
                   path: string, httpMethod: string, dataKey: Option<string>,
                   exchange: OutboundRequest -> Result<UpstreamResponse, string>,
                   fileNameOf: HeaderMap -> Result<Option<string>, string>,
                   persist: ApiResponse -> bool): (run: ProxyRun)
    ensures run.sent == BuildOutbound(settings, api, inbound, path, httpMethod)
    ensures exchange(run.sent).Failure? ==>
              run.captured == [] && run.result == Failure(UpstreamFailed(run.sent.url, exchange(run.sent).error))
    ensures exchange(run.sent).Success? ==>
              var lookup := fileNameOf(Normalise(exchange(run.sent).value).headers);
              && |run.captured| == (if CapturingEnabled(api, settings) && lookup.Success? then 1 else 0)
              && (CapturingEnabled(api, settings) && lookup.Failure? ==>
                    run.result == Failure(FileNameFailed(lookup.error)))
    ensures |run.captured| == 1 ==>
              var raw := exchange(run.sent).value;
              var headers := Normalise(raw).headers;
              run.captured[0] == Capture(path, httpMethod, dataKey, raw.status, headers, raw.body, fileNameOf(headers).value)
    ensures run.result.Success? <==>
              && exchange(run.sent).Success?
              && (!CapturingEnabled(api, settings) || (|run.captured| == 1 && persist(run.captured[0])))
    ensures run.result.Success? ==> run.result.value == Normalise(exchange(run.sent).value)
    ensures |run.captured| == 1 && !run.result.Success? ==> run.result == Failure(CaptureFailed(run.captured[0]))
  {
    var sent := BuildOutbound(settings, api, inbound, path, httpMethod);
    match exchange(sent)
    case Failure(reason) => ProxyRun(sent, [], Failure(UpstreamFailed(sent.url, reason)))
    case Success(raw) =>
      var envelope := Normalise(raw);
      if CapturingEnabled(api, settings) then
        match fileNameOf(envelope.headers)
        case Failure(reason) => ProxyRun(sent, [], Failure(FileNameFailed(reason)))
        case Success(fileName) =>
          var record := Capture(path, httpMethod, dataKey, raw.status, envelope.headers, raw.body, fileName);
          if persist(record) then ProxyRun(sent, [record], Success(envelope))
          else ProxyRun(sent, [record], Failure(CaptureFailed(record)))
      else ProxyRun(sent, [], Success(envelope))
  }

  /** The header block of a captured record never has a Transfer-Encoding
      line: read back, it gives the upstream pairs in upstream order with
      the Transfer-Encoding pairs left out, and none is named
      Transfer-Encoding. */
  lemma CapturedBlockHasNoTransferEncoding(raw: UpstreamResponse, path: string, httpMethod: string,
                                           dataKey: Option<string>, fileName: Option<string>)
    requires Encodable(Flatten(Normalise(raw).headers))
    ensures
      var headers := Normalise(raw).headers;
      var pairs := ParseBlock(Capture(path, httpMethod, dataKey, raw.status, headers, raw.body, fileName).fields.header);
      && pairs == Flatten(headers)
      && pairs == DropName(Flatten(raw.headers), TransferEncoding)
      && forall k :: 0 <= k < |pairs| ==> !SameName(pairs[k].0, TransferEncoding)
  {
    var headers := Normalise(raw).headers;
    BlockRoundTrip(headers);
    FlattenNamesAreKeys(headers, TransferEncoding);
  }

  lemma OrdersScenarioRequest()
    ensures BuildOutbound(ProxySettings("http://upstream.test", true), Some(Api("/orders", "GET", None)),
                          InboundRequest(Some("status=open"), [("Accept", ["application/json"])], None),
                          "/orders", "GET")
         == OutboundRequest("GET", "http://upstream.test/orders?status=open",
                            [("Accept", ["application/json"])], None)
  {
    ForwardCopiesDistinctHeaders([("Accept", ["application/json"])]);
  }

  lemma OrdersScenarioResponseHeaders()
    ensures !ContainsKey([("Content-Type", ["application/json"])], TransferEncoding)
    ensures Block([("Content-Type", ["application/json"])]) == "Content-Type: application/json"
  {
  }

  /** A route without override, the default upstream with capturing on, and
      GET /orders?status=open with an Accept header: the call goes to the
      default upstream with the query string and the header, the 200 answer
      comes back buffered and unchanged, and one inline record is stored. */
  lemma OrdersScenario(body: seq<byte>)
    ensures
      var inbound := InboundRequest(Some("status=open"), [("Accept", ["application/json"])], None);
      var upstream := UpstreamResponse(200, [("Content-Type", ["application/json"])], body);
      var run := Perform(ProxySettings("http://upstream.test", true), Some(Api("/orders", "GET", None)),
                         inbound, "/orders", "GET", None,
                         (req: OutboundRequest) => Success(upstream),
                         (hs: HeaderMap) => Success(None),
                         (rec: ApiResponse) => true);
      && run.sent == OutboundRequest("GET", "http://upstream.test/orders?status=open",
                                     [("Accept", ["application/json"])], None)
      && run.result == Success(ResponseEnvelope(200, upstream.headers, Buffered(body)))
      && run.captured == [ApiResponse(ResponseFields("/orders", "GET", None, 200, "Content-Type: application/json"),
                                      Inline(body))]
  {
    OrdersScenarioRequest();
    OrdersScenarioResponseHeaders();
  }
}

=== FILE: responses.dfy ===
/** The decisions of the admin screens for stored responses: what a create
    or an update stores, when the edit form shows the body, and where the
    browser goes after a create or a history deletion. Persistence calls,
    UTF-8 encoding and decoding are parameters. */
module ResponseController {
  import opened Base
  import opened Text
  import opened Domain

  /** An uploaded multipart file. */
  datatype Upload = Upload(originalFilename: Option<string>, content: seq<byte>)

  /** The bound edit form. */
  datatype ResponseForm = ResponseForm(
    fields: ResponseFields,
    body: string,
    file: Option<Upload>,
    deleteFile: bool,
    saveHistory: bool)

  datatype Message = DataAlreadyExists

  datatype Location = ResponseList | ResponsePage(id: int) | HistoryList(id: int)

  /** The form page or a redirect. A form page may carry an error message,
      and `formBody` is the body text loaded from a stored record; pages that
      re-show the posted form leave it None, as the posted form keeps its own
      typed body. */
  datatype View =
    | FormPage(error: Option<Message>, formBody: Option<string>)
    | Redirect(to: Location)

  /** What ApiResponseService.create answers: an assigned id, or a
      duplicate-key rejection. */
  datatype CreateOutcome = Created(id: int) | DuplicateKey

  /** One create: the record handed to the service, if any, and the view. */
  datatype CreateRun = CreateRun(attempted: Option<ApiResponse>, view: View)

  /** The arguments of ApiResponseService.update. */
  datatype UpdateCall = UpdateCall(
    id: int,
    fields: ResponseFields,
    payload: Option<Payload>,
    keepAttachmentFile: bool,
    saveHistory: bool)

  datatype EditRun = EditRun(call: Option<UpdateCall>, view: View)

  /** A file counts as uploaded when it is there and has a non-empty
      original file name. */
  predicate HasUpload(form: ResponseForm)
  {
    form.file.Some? && HasLength(form.file.value.originalFilename)
  }

  /** The file name a record gets from an upload: the last path segment of
      the original file name. */
  function UploadName(upload: Upload): (name: string)
    requires HasLength(upload.originalFilename)
    ensures '/' !in name
    ensures |name| <= |upload.originalFilename.value|
    ensures name == upload.originalFilename.value[|upload.originalFilename.value| - |name|..]
    ensures |name| < |upload.originalFilename.value| ==>
              upload.originalFilename.value[|upload.originalFilename.value| - |name| - 1] == '/'
  {
    LastSegment(upload.originalFilename.value)
  }

  /** What a create stores: the uploaded file as an attachment when there
      is one, the UTF-8 bytes of the typed body otherwise. */
  function CreatePayload(form: ResponseForm, utf8: string -> seq<byte>): (p: Payload)
    ensures p.Attachment? <==> HasUpload(form)
    ensures p.Attachment? ==> p.content == form.file.value.content
                              && p.fileName == UploadName(form.file.value)
    ensures p.Inline? ==> p.body == utf8(form.body)
  {
    if HasUpload(form) then Attachment(UploadName(form.file.value), form.file.value.content)
    else Inline(utf8(form.body))
  }

  /** ApiResponseController.create. Validation errors show the form again
      and store nothing; otherwise the record goes to the service, a
      duplicate key shows the form with "data already exists", and a
      success redirects to the new record. */
  function Create(form: ResponseForm, hasErrors: bool, utf8: string -> seq<byte>,
                  create: ApiResponse -> CreateOutcome): (run: CreateRun)
    ensures hasErrors ==> run.attempted == None && run.view == FormPage(None, None)
    ensures !hasErrors ==> run.attempted == Some(ApiResponse(form.fields, CreatePayload(form, utf8)))
    ensures run.view.Redirect? <==> !hasErrors && create(run.attempted.value).Created?
    ensures run.view.Redirect? ==> run.view.to == ResponsePage(create(run.attempted.value).id)
    ensures !hasErrors && create(run.attempted.value).DuplicateKey? ==>
              run.view == FormPage(Some(DataAlreadyExists), None)
  {
    if hasErrors then CreateRun(None, FormPage(None, None))
    else
      var record := ApiResponse(form.fields, CreatePayload(form, utf8));
      match create(record)
      case DuplicateKey => CreateRun(Some(record), FormPage(Some(DataAlreadyExists), None))
      case Created(id) => CreateRun(Some(record), Redirect(ResponsePage(id)))
  }

  /** ApiResponseController.edit. The update takes the uploaded file first,
      then a non-empty body, and otherwise keeps the attached file unless the
      form asks to delete it; the history flag is passed on unchanged and
      the browser returns to the record. */
  function Edit(id: int, form: ResponseForm, hasErrors: bool, utf8: string -> seq<byte>): (run: EditRun)
    ensures hasErrors ==> run.call == None && run.view == FormPage(None, None)
    ensures !hasErrors ==> run.call.Some? && run.view == Redirect(ResponsePage(id))
    ensures run.call.Some? ==>
              var c := run.call.value;
              && c.id == id
              && c.fields == form.fields
              && c.saveHistory == form.saveHistory
              && (c.keepAttachmentFile <==> !HasUpload(form) && |form.body| == 0 && !form.deleteFile)
              && (c.payload.Some? && c.payload.value.Attachment? <==> HasUpload(form))
              && (c.payload.Some? && c.payload.value.Inline? <==> !HasUpload(form) && |form.body| > 0)
              && (c.keepAttachmentFile ==> c.payload.None?)
              && (HasUpload(form) ==> c.payload == Some(Attachment(UploadName(form.file.value), form.file.value.content)))
              && (!HasUpload(form) && |form.body| > 0 ==> c.payload == Some(Inline(utf8(form.body))))
  {
    if hasErrors then EditRun(None, FormPage(None, None))
    else
      var (payload, keep) :=
        if HasUpload(form) then (Some(Attachment(UploadName(form.file.value), form.file.value.content)), false)
        else if HasLength(Some(form.body)) then (Some(Inline(utf8(form.body))), false)
        else (None, !form.deleteFile);
      EditRun(Some(UpdateCall(id, form.fields, payload, keep, form.saveHistory)), Redirect(ResponsePage(id)))
  }

  /** The body an edit or history form shows: the decoded body of a record
      that has one and no file name; never anything for an attachment. */
  function FormBody(record: StoredResponse, decode: seq<byte> -> string): (shown: Option<string>)
    ensures shown.Some? <==> record.body.Some? && record.fileName.None?
    ensures shown.Some? ==> shown.value == decode(record.body.value)
  {
    if record.body.Some? && record.fileName.None? then Some(decode(record.body.value)) else None
  }

  /** ApiResponseController.editForm: a missing record sends the browser
      back to the list; a found one shows the form, filled with the decoded
      body only for an inline record and never for an attachment. */
  function EditForm(found: Option<StoredResponse>, decode: seq<byte> -> string): (v: View)
    ensures v.Redirect? <==> found.None?
    ensures v.Redirect? ==> v.to == ResponseList
    ensures v.FormPage? ==> v.error == None
    ensures v.FormPage? && v.formBody.Some? ==>
              found.value.body.Some? && found.value.fileName.None?
              && v.formBody.value == decode(found.value.body.value)
    ensures found.Some? && found.value.body.Some? && found.value.fileName.None? ==> v.formBody.Some?
    ensures found.Some? && found.value.fileName.Some? ==> v == FormPage(None, None)
  {
    match found
    case None => Redirect(ResponseList)
    case Some(r) => FormPage(None, FormBody(r, decode))
  }

  /** ApiResponseController.history: a missing history entry sends the
      browser back to the history list; a found one shows it as the edit
      form does. */
  function History(id: int, found: Option<StoredResponse>, decode: seq<byte> -> string): (v: View)
    ensures v.Redirect? <==> found.None?
    ensures v.Redirect? ==> v.to == HistoryList(id)
    ensures v.FormPage? ==> v.error == None
    ensures v.FormPage? && v.formBody.Some? ==>
              found.value.body.Some? && found.value.fileName.None?
              && v.formBody.value == decode(found.value.body.value)
    ensures found.Some? && found.value.body.Some? && found.value.fileName.None? ==> v.formBody.Some?
    ensures found.Some? && found.value.fileName.Some? ==> v == FormPage(None, None)
  {
    match found
    case None => Redirect(HistoryList(id))
    case Some(r) => FormPage(None, FormBody(r, decode))
  }

  /** A record created from the form shows, when opened again, the body
      that was typed if no file was uploaded, and no body if one was. */
  lemma CreatedRecordShowsTypedBody(form: ResponseForm, utf8: string -> seq<byte>, decode: seq<byte> -> string)
    requires decode(utf8(form.body)) == form.body
    ensures var stored := ToStored(ApiResponse(form.fields, CreatePayload(form, utf8)));
            && (HasUpload(form) ==> FormBody(stored, decode) == None)
            && (!HasUpload(form) ==> FormBody(stored, decode) == Some(form.body))
  {
  }

  /** A created record opened again in the edit form, or kept as a history
      entry and opened in the history view, shows the typed body when no
      file was uploaded and no body when one was. */
  lemma CreatedRecordReopened(id: int, form: ResponseForm, utf8: string -> seq<byte>,
                              decode: seq<byte> -> string)
    requires decode(utf8(form.body)) == form.body
    ensures var stored := ToStored(ApiResponse(form.fields, CreatePayload(form, utf8)));
            var shown := if HasUpload(form) then None else Some(form.body);
            && EditForm(Some(stored), decode) == FormPage(None, shown)
            && History(id, Some(stored), decode) == FormPage(None, shown)
  {
    CreatedRecordShowsTypedBody(form, utf8, decode);
  }

  /** An update stores what a create of the same form would store whenever
      the form brings a file or a non-empty body; only with neither does it
      differ, keeping or clearing the attachment where a create would store
      an empty inline body. */
  lemma EditAgreesWithCreate(id: int, form: ResponseForm, utf8: string -> seq<byte>,
                             create: ApiResponse -> CreateOutcome)
    ensures var call := Edit(id, form, false, utf8).call.value;
            var created := Create(form, false, utf8, create).attempted.value;
            && call.fields == created.fields
            && (HasUpload(form) || |form.body| > 0 <==> call.payload == Some(created.payload))
            && (!HasUpload(form) && |form.body| == 0 ==> created.payload == Inline(utf8("")))
  {
  }

  /** The redirect after deleting histories, given the sub-ids of the
      histories the record still has: back to the record when none is left,
      to the history list otherwise. */
  function RedirectAfterHistoryDeletion(id: int, remaining: set<int>): (to: Location)
    ensures to == ResponsePage(id) <==> remaining == {}
    ensures to == HistoryList(id) <==> remaining != {}
  {
    if remaining == {} then ResponsePage(id) else HistoryList(id)
  }

  /** deleteHistories over a history store seen as the set of sub-ids of
      the record: the deleted sub-ids leave the store, and the browser goes
      back to the record exactly when every history was deleted. */
  function DeleteHistories(id: int, subIdsBefore: set<int>, deleted: seq<int>): (r: (set<int>, Location))
    ensures r.0 == set s | s in subIdsBefore && s !in deleted
    ensures r.1 == ResponsePage(id) <==> forall s :: s in subIdsBefore ==> s in deleted
    ensures r.1 == HistoryList(id) <==> exists s :: s in subIdsBefore && s !in deleted
  {
    var remaining := set s | s in subIdsBefore && s !in deleted;
    assert remaining == {} <==> forall s :: s in subIdsBefore ==> s in deleted by {
      if exists s :: s in subIdsBefore && s !in deleted {
        var s :| s in subIdsBefore && s !in deleted;
        assert s in remaining;
      } else {
        assert forall s :: s !in remaining;
      }
    }
    (remaining, RedirectAfterHistoryDeletion(id, remaining))
  }

  /** deleteHistory: the single-entry case of deleteHistories. */
  function DeleteHistory(id: int, subIdsBefore: set<int>, subId: int): (r: (set<int>, Location))
    ensures r.0 == subIdsBefore - {subId}
    ensures r.1 == ResponsePage(id) <==> subIdsBefore <= {subId}
    ensures r.1 == HistoryList(id) <==> !(subIdsBefore <= {subId})
  {
    DeleteHistories(id, subIdsBefore, [subId])
  }
}

=== FILE: text.dfy ===
/** Character-level helpers: ASCII case folding and the last segment of a path. */
module Text {

  predicate IsLowerAscii(c: char)
  {
    'a' <= c <= 'z'
  }

  /** Character.toUpperCase restricted to the ASCII letters. */
  function UpperChar(c: char): char
  {
    if IsLowerAscii(c) then (c as int - 32) as char else c
  }

  /** String.toUpperCase on the ASCII tokens HTTP uses for methods and header
      names: each lower-case letter becomes its capital, everything else is
      kept, and no lower-case letter is left. */
  function ToUpper(s: string): (r: string)
    ensures |r| == |s|
    ensures forall i :: 0 <= i < |s| && IsLowerAscii(s[i]) ==> r[i] as int == s[i] as int - 32
    ensures forall i :: 0 <= i < |s| && !IsLowerAscii(s[i]) ==> r[i] == s[i]
    ensures forall i :: 0 <= i < |r| ==> !IsLowerAscii(r[i])
  {
    seq(|s|, i requires 0 <= i < |s| => UpperChar(s[i]))
  }

  /** Upper-casing twice is upper-casing once. */
  lemma ToUpperIdempotent(s: string)
    ensures ToUpper(ToUpper(s)) == ToUpper(s)
  {
  }

  /** Paths.get(name).getFileName(), read as the text after the last '/':
      a suffix of the name that holds no '/', and that is either the whole
      name or is preceded by a '/'. */
  function LastSegment(s: string): (r: string)
    ensures |r| <= |s| && r == s[|s| - |r|..]
    ensures '/' !in r
    ensures |r| < |s| ==> s[|s| - |r| - 1] == '/'
    decreases |s|
  {
    if |s| == 0 || s[|s| - 1] == '/' then ""
    else LastSegment(s[..|s| - 1]) + [s[|s| - 1]]
  }

  /** A name without any '/' is its own last segment, and taking the last
      segment again changes nothing. */
  lemma LastSegmentOfPlainName(s: string)
    ensures '/' !in s ==> LastSegment(s) == s
    ensures LastSegment(LastSegment(s)) == LastSegment(s)
  {
  }
}
